=== FILE: README.md ===
# VulkanInvaders: mesh model and projectile, in Dafny

This project models two pieces of the VulkanInvaders game.

- **`Model`** (`src/Model.cpp`) loads a mesh that the tinyobj parser has already read. It flattens the shapes into one vertex per face-vertex occurrence and a matching index list. It uploads both lists through host-visible staging buffers into device-local buffers, records one indexed draw, and destroys the buffers.
- **`Projectile`** (`src/Projectile.cpp`) is a shot that moves along a fixed direction. It keeps its model matrix in a mapped uniform buffer and is drawn through a shared `Model`. The `updated` flag marks the matrix as stale; `update` always refreshes it and clears the flag.

Files:

- `optional.dfy`: `Option`.
- `glm.dfy`: vectors, column-major 4x4 matrices and `translate`, over reals.
- `vertex_layout.dfy`: the `Vertex` record, its 44-byte stride, the 4-byte index stride and the 32-bit index range, shared by the loader and the device.
- `tinyobj.dfy`: the parser's output (attribute arrays, shapes, index records) and the bounds the loader silently relies on.
- `mesh_flattening.dfy`: the triple loop. It is a method with loop invariants, checked against functional reference sequences.
- `vulkan.dfy`: the device.
  - The device is the sequence of every object it has made, in creation order. Handle `h` names slot `h`.
  - A create appends a slot and a destroy empties one.
  - Every call that creates, destroys, records a copy into, submits, maps or writes an object is a method whose effect on the slot sequence is exact.
  - Draw-time commands are values in a command list, and a ghost function replays them against the device.
- `mesh_model.dfy`: the constructor, destructor and `draw` of `Model`.
- `projectile.dfy`: the constructor, `allocateResources`, `update`, `updateUniformdata`, `draw` and the destructor of `Projectile`.

Two behaviours of the code shape the model:

- **Failed parse.** The constructor returns early and leaves `indexCount` and both buffers uninitialised. `draw` has no zero-count guard, and the destructor destroys the buffers unconditionally. In the model, a failed parse therefore yields `ParseFailed`, with no `Model` value to draw or release.
- **Wait timeout.** The result of `vkWaitForFences` goes to the same fatal check as every other call. The model assumes every call succeeds, so the wait completes.

## Model

| member | source | states |
|---|---|---|
| MeshFlattening.MakeVertex | src/Model.cpp:34-43 | The vertex built from an index record takes its position and normal through their own indices. Its texture coordinate is filled only when the parser produced texture coordinates. Its colour is filled only when the parser produced colours, and then through the position index. Any field not looked up keeps its zero default. |
| MeshFlattening.FaceRecordsArePrefix | src/Model.cpp:30-47 | Walking the faces with a running offset visits exactly the first `sum(num_face_vertices)` index records, in order. No record is skipped or read twice. |
| MeshFlattening.MeshRecordsInBounds | src/Model.cpp:28-46 | On well-formed parser output, every index record the loop visits, across all shapes, addresses existing attribute entries. |
| MeshFlattening.MeshVertices | src/Model.cpp:28-46 | Reference sequence: one vertex per face-vertex occurrence over all shapes. The j-th vertex is the one built from the j-th visited record. |
| MeshFlattening.MeshIndices | src/Model.cpp:45 | Reference index sequence for n vertices. Every index fits in 32 bits and is at most its own position. When n does not exceed 2^32, index j is exactly j. |
| MeshFlattening.FlattenShape | src/Model.cpp:29-49 | One shape's pass appends exactly one vertex and one index per face-vertex of that shape, and leaves earlier output untouched. Each appended index equals its global position (mod 2^32). Each appended vertex is built from the shape's records in face order. |
| MeshFlattening.NextShapeRecords | src/Model.cpp:28-29 | One shape's vertices, appended after those of the earlier shapes, are exactly the vertices of the longer prefix of shapes. |
| MeshFlattening.Flatten | src/Model.cpp:26-50 | The loop outputs equal the reference sequences. There are as many vertices as indices, namely the total face-vertex count. Every index is below the vertex count. If the total fits in 32 bits, index j is j across shape boundaries. |
| MeshFlattening.SingleTriangle | src/Model.cpp:26-52 | Worked example: a one-triangle shape without texture coordinates or colours flattens to indices 0, 1, 2. Its three vertices carry the three positions and normals, a zero texture coordinate and a zero colour. |
| Glm.TranslateIdentity | src/Projectile.cpp:71 | Translating the identity by v gives the pure translation matrix. The offset it applies to the origin is v. |
| MeshModel.IndicesInRange | src/Model.cpp:45-52 | The first `indexCount` (the total truncated to 32 bits) reference indices exist and are all below the vertex count. |
| MeshModel.CreateUploadBuffers | src/Model.cpp:54-61 | Four buffers are created, each with its own memory: two host-visible transfer-source staging buffers holding the vertex and index data, and two device-local transfer-destination buffers. The staging and device-local buffers have the same byte sizes: 44 × the number of vertices and 4 × the number of indices. Both counts must be positive, since Vulkan forbids zero-size buffers. |
| Vulkan.ApplyWholeCopy | src/Model.cpp:75-79 | A copy region whose size equals both buffers' sizes carries the whole source contents into the destination and changes nothing else. |
| MeshModel.Copied | src/Model.cpp:75-93 | Running the two recorded copies leaves each device-local buffer holding its staging buffer's data. Every other slot is unchanged. |
| MeshModel.CopyToDevice | src/Model.cpp:63-95 | One command buffer records the two full-size copies. It is submitted with a fresh fence and waited on, and then the fence is destroyed. Afterwards the device-local buffers hold the data, and of the new handles only the command buffer stays live. |
| MeshModel.DestroyStaging | src/Model.cpp:97-100 | Both staging buffers are destroyed and their memory is freed. Nothing else changes. |
| MeshModel.UploadLive | src/Model.cpp:57-100 | The constructor's net effect on the live handle set is to add the two device-local buffers, their memory and the copy command buffer. None of these handles was live before. |
| MeshModel.Upload | src/Model.cpp:52-100 | After flattening, the model holds the two device-local buffers at their byte sizes and `indexCount` equal to the index count truncated to 32 bits. The device gains exactly the slots described above. |
| MeshModel.Load | src/Model.cpp:12-101 | A parse error returns before anything is built, leaving the device untouched. Otherwise, for a mesh with at least one face-vertex, the constructor leaves exactly the model's four handles and the command buffer newly live, all fresh. The model owns distinct buffers holding the flattened data. The model is ready to draw: `indexCount` indices exist, and each names a vertex in the vertex buffer. |
| MeshModel.Release | src/Model.cpp:103-109 | The destructor destroys both buffers and frees both memories. Exactly the model's four handles stop being live. |
| MeshModel.Draw | src/Model.cpp:111-117 | `draw` keeps the commands recorded so far. It appends a vertex-buffer bind at binding 0 and offset 0, an index-buffer bind of 32-bit indices at offset 0, and one indexed draw of `indexCount` indices, one instance, with zero first index, vertex offset and first instance. |
| MeshModel.DrawFetchesIndexRange | src/Model.cpp:111-117 | Replaying what `draw` records succeeds exactly when the model is ready to draw. When it succeeds, it fetches the first `indexCount` entries of the index buffer. |
| MeshModel.LoadAndRelease | src/Model.cpp:12-109 | A model constructed and then destroyed leaves only the pool-owned copy command buffer live among the handles it created. A failed parse leaves the device as it was. |
| ProjectileEntity.New | src/Projectile.cpp:15-20 | Construction sets the position and origin to the given position and the direction as given. The speed is 7.5 on every axis and the size is (0.25, 0.5, 0.25). The flag starts set, as `src/Projectile.h` line 26 initialises it, and nothing is allocated yet. |
| ProjectileEntity.AllocateResources | src/Projectile.cpp:28-57 | Creates a host-visible uniform buffer of one 64-byte matrix block that holds the current matrix. Creates a layout with the single binding (0, uniform buffer, count 1, vertex stage). Creates a set of that layout written at binding 0 with the buffer. Exactly these four handles become live, and the buffer starts in sync with the matrix. |
| ProjectileEntity.UpdateUniformData | src/Projectile.cpp:68-75 | If the flag is set, the matrix becomes the identity translated by the position, and the mapped buffer receives it. If the flag is clear, nothing changes on the projectile or the device. Either way, the flag ends clear and the live set is unchanged. |
| ProjectileEntity.Update | src/Projectile.cpp:59-66 | The position moves by `direction*speed*dt`, component by component. Direction, speed, origin, size, model and resources are unchanged. Afterwards the flag is clear, the matrix's offset is the new position, and the mapped buffer holds the matrix. On the device only the uniform buffer's contents change, so every other object, such as a loaded model's buffers, is kept as it was. |
| ProjectileEntity.Draw | src/Projectile.cpp:77-82 | The command stream changes exactly when a model is attached. In that case the result is the model's own draw. |
| ProjectileEntity.Destroy | src/Projectile.cpp:22-26 | Destroys the set layout and the uniform buffer, and frees the buffer's memory. Exactly those three handles stop being live; the pool-owned descriptor set remains. |
| ProjectileEntity.Lifetime | src/Projectile.cpp:15-82 | Construction, allocation, any number of updates and destruction leave only the descriptor set live among the projectile's handles. After at least one update, which includes the first since the flag starts set, the flag is clear and the matrix's offset is the current position. |

## Left out

- The tinyobj parser itself (`src/Model.cpp:19`). It is an external library; its output is the constructor's input, and well-formedness of that output is a precondition because the loader indexes without checks.
- VulkanDevice and `VulkanDeviceBuffer` are not part of this model. `createBuffer`, `destroy` and the persistent mapping are modelled from how the two classes use them. Whatever `ubo.destroy()` does beyond destroying the buffer and freeing its memory is not modelled. It is defined in VulkanDevice, outside this model.
- `VK_CHECK_RESULT` aborts on failure. The model assumes every device call succeeds, including `vkWaitForFences`, whose 100-second timeout is not modelled.
- Command buffer begin and end, the submit info, the command pool and the descriptor pool are not modelled. The copy command buffer and the descriptor set are pool allocations the code never frees, so they stay live in the model.
- Logging to `std::cerr` and the no-op `material_ids` expression (`src/Model.cpp:22`, `src/Model.cpp:48`) are not modelled.
- Floating point is not modelled: vector and matrix components are reals, and `memcpy` of the matrix is a change of the buffer's contents.
- Byte layouts are not modelled: `sizeof(Vertex)` is taken as 44 bytes (three `vec3` and one `vec2` of 32-bit floats), and buffer contents are typed values rather than bytes.
- ProjectileEntity.Update: does not claim that two updates add up to one longer update, because float addition does not guarantee it.
- ProjectileEntity.New: takes the matrix `uniformData` holds before the first update as a parameter. The member's initial value depends on the glm version, and the first update overwrites it in every case.
- ProjectileEntity.AllocateResources: assumes the descriptor write binds `ubo`'s buffer at binding 0. In `src/Projectile.cpp:55-56` the `pBufferInfo` pointer is the address of a temporary `VkDescriptorBufferInfo`. That temporary is destroyed at the end of line 55, before `vkUpdateDescriptorSets` reads it on line 56. Standard C++ rejects taking a temporary's address, and only some compilers accept it as an extension. What the update reads through the dangling pointer is not modelled.
- `Projectile()` initialises only `updated` (true, `src/Projectile.h:26`). `model`, the kinematic fields, `uniformData` and the resources are left unset, so it is not modelled.
- ProjectileEntity.Update: requires the resources that only `allocateResources` creates, because `updateUniformdata` writes through the mapping of `ubo` (`src/Projectile.cpp:72`). Updating a projectile before `allocateResources` writes through an unset mapping and is not modelled.
- ProjectileEntity.Destroy: requires the resources that only `allocateResources` creates, because the destructor uses `ubo.device` and `descriptorSetLayout` (`src/Projectile.cpp:24-25`). Destroying a projectile that was never allocated uses unset handles and is not modelled.
- MeshModel.Load: requires at least one face-vertex when the parse succeeds. For an empty mesh the code asks `createBuffer` for 0-byte buffers (`src/Model.cpp:54-61`) and records 0-byte copies (`src/Model.cpp:76-79`). Vulkan's valid usage forbids both, so that case has no defined outcome to model. `Vulkan.CreateBuffer` and `Vulkan.CmdCopyBuffer` require a positive size. `MeshModel.LoadAndRelease` carries the same precondition.
- The state after a failed parse has no `Model` value. Its uninitialised `indexCount` and buffers are not modelled, so neither is drawing or destroying such a model.
- `src/Model.h` disagrees with `src/Model.cpp` (a reference instead of a pointer for the device, no `color` field, no `indexCount` or `draw`). `src/Model.cpp` is followed.
- CPU/GPU overlap between frames and any concurrency are not modelled.
- Draw replay checks index and vertex ranges only. It fetches once per draw, whatever the instance count, and nothing is rasterised.

=== FILE: glm.dfy ===
/** The part of glm the projectile uses: small vectors, 4x4 matrices stored
    column by column, and `translate`. Components are reals, so the model
    states structural facts only and says nothing about float rounding. */
module Glm {

  datatype Vec2 = Vec2(x: real, y: real)
  datatype Vec3 = Vec3(x: real, y: real, z: real)
  datatype Vec4 = Vec4(x: real, y: real, z: real, w: real)

  /** Column-major, as glm stores it: `c3` is the fourth column, `m[3]`. */
  datatype Mat4 = Mat4(c0: Vec4, c1: Vec4, c2: Vec4, c3: Vec4)

  /** The value a value-initialised `glm::vec2` / `glm::vec3` holds. */
  const Zero2 := Vec2(0.0, 0.0)
  const Zero3 := Vec3(0.0, 0.0, 0.0)

  /** `glm::vec3(s)`: every component set to `s`. */
  function Splat(s: real): (r: Vec3) {
    Vec3(s, s, s)
  }

  function Add(a: Vec3, b: Vec3): (r: Vec3) {
    Vec3(a.x + b.x, a.y + b.y, a.z + b.z)
  }

  /** Component-wise product, glm's `vec3 * vec3`. */
  function Mul(a: Vec3, b: Vec3): (r: Vec3) {
    Vec3(a.x * b.x, a.y * b.y, a.z * b.z)
  }

  function Scale(a: Vec3, s: real): (r: Vec3) {
    Vec3(a.x * s, a.y * s, a.z * s)
  }

  function Add4(a: Vec4, b: Vec4): (r: Vec4) {
    Vec4(a.x + b.x, a.y + b.y, a.z + b.z, a.w + b.w)
  }

  function Scale4(a: Vec4, s: real): (r: Vec4) {
    Vec4(a.x * s, a.y * s, a.z * s, a.w * s)
  }

  /** `glm::mat4(1.0f)`. */
  function Identity(): (r: Mat4) {
    Mat4(Vec4(1.0, 0.0, 0.0, 0.0),
         Vec4(0.0, 1.0, 0.0, 0.0),
         Vec4(0.0, 0.0, 1.0, 0.0),
         Vec4(0.0, 0.0, 0.0, 1.0))
  }

  /** `glm::translate(m, v)`: the fourth column becomes
      `m[0] * v.x + m[1] * v.y + m[2] * v.z + m[3]`; the other three stay. */
  function Translate(m: Mat4, v: Vec3): (r: Mat4)
    ensures r.c0 == m.c0 && r.c1 == m.c1 && r.c2 == m.c2
  {
    m.(c3 := Add4(Add4(Add4(Scale4(m.c0, v.x), Scale4(m.c1, v.y)), Scale4(m.c2, v.z)), m.c3))
  }

  /** The offset a transform applies to the origin: the xyz part of its fourth column. */
  function TranslationOf(m: Mat4): (r: Vec3) {
    Vec3(m.c3.x, m.c3.y, m.c3.z)
  }

  /** Translating the identity yields the pure translation matrix, whose
      offset is the vector itself. */
  lemma TranslateIdentity(v: Vec3)
    ensures Translate(Identity(), v) == Identity().(c3 := Vec4(v.x, v.y, v.z, 1.0))
    ensures TranslationOf(Translate(Identity(), v)) == v
  {
  }
}

=== FILE: mesh_flattening.dfy ===
/** The vertex/index flattening in the model constructor: shapes, then
    faces, then face-vertices, one new vertex and one new index per
    face-vertex occurrence, with no sharing between occurrences. */
module MeshFlattening {

  import opened Glm
  import opened TinyObj
  import opened VertexLayout

  /** `v` is the vertex the loader assembles from the index record `idx`:
      position and normal looked up by their own indices, the texture
      coordinate only when the parser produced any, the colour only when the
      parser produced any and then through the POSITION index; a field not
      looked up keeps its zero default. */
  predicate Emits(a: Attrib, idx: Index, v: Vertex) {
    && IndexInBounds(a, idx)
    && v.position == Vec3At(a.vertices, idx.vertexIndex)
    && v.normal == Vec3At(a.normals, idx.normalIndex)
    && v.uv == (if |a.texcoords| > 0 then Vec2At(a.texcoords, idx.texcoordIndex) else Zero2)
    && v.color == (if |a.colors| > 0 then Vec3At(a.colors, idx.vertexIndex) else Zero3)
  }

  /** One vertex as the loop body builds it: start from the default, then
      overwrite field by field. */
  function MakeVertex(a: Attrib, idx: Index): (v: Vertex)
    requires IndexInBounds(a, idx)
    ensures Emits(a, idx, v)
  {
    var withGeometry := DefaultVertex.(position := Vec3At(a.vertices, idx.vertexIndex),
                                       normal := Vec3At(a.normals, idx.normalIndex));
    var withUv := if |a.texcoords| > 0 then withGeometry.(uv := Vec2At(a.texcoords, idx.texcoordIndex)) else withGeometry;
    if |a.colors| > 0 then withUv.(color := Vec3At(a.colors, idx.vertexIndex)) else withUv
  }

  /** The index records a face-by-face walk visits: for the last face, the
      `fvs[last]` records that start at the running offset left by the
      faces before it. */
  function FaceRecords(recs: seq<Index>, fvs: seq<nat>): (r: seq<Index>)
    requires Sum(fvs) <= |recs|
    ensures |r| == Sum(fvs)
  {
    if fvs == [] then []
    else
      var init := fvs[..|fvs| - 1];
      var offset := Sum(init);
      FaceRecords(recs, init) + recs[offset .. offset + fvs[|fvs| - 1]]
  }

  function ShapeRecords(sh: Shape): (r: seq<Index>)
    requires ShapeIndexed(sh)
  {
    FaceRecords(sh.mesh.indices, sh.mesh.numFaceVertices)
  }

  /** The index records visited over all shapes, shape after shape: the
      j-th element is the record the j-th emitted vertex is built from. */
  function MeshRecords(shapes: seq<Shape>): (r: seq<Index>)
    requires AllIndexed(shapes)
    ensures |r| == TotalCorners(shapes)
  {
    if shapes == [] then []
    else MeshRecords(shapes[..|shapes| - 1]) + ShapeRecords(shapes[|shapes| - 1])
  }

  /** Walking the faces with a running offset visits exactly the first
      `Sum(fvs)` records, in order: no record is skipped or read twice. */
  lemma {:induction false} FaceRecordsArePrefix(recs: seq<Index>, fvs: seq<nat>)
    requires Sum(fvs) <= |recs|
    ensures FaceRecords(recs, fvs) == recs[..Sum(fvs)]
  {
    if fvs != [] {
      var init := fvs[..|fvs| - 1];
      var offset := Sum(init);
      FaceRecordsArePrefix(recs, init);
      assert recs[..offset] + recs[offset .. offset + fvs[|fvs| - 1]] == recs[..Sum(fvs)];
    }
  }

  /** Under the parser's guarantees, every record the walk visits can be
      dereferenced. */
  lemma {:induction false} MeshRecordsInBounds(a: Attrib, shapes: seq<Shape>)
    requires WellFormed(a, shapes)
    ensures AllIndexed(shapes)
    ensures forall j :: 0 <= j < |MeshRecords(shapes)| ==> IndexInBounds(a, MeshRecords(shapes)[j])
  {
    if shapes != [] {
      var init := shapes[..|shapes| - 1];
      var last := shapes[|shapes| - 1];
      assert WellFormed(a, init) by {
        forall i | 0 <= i < |init| ensures ShapeWellFormed(a, init[i]) {
          assert init[i] == shapes[i];
        }
      }
      assert ShapeWellFormed(a, last);
      MeshRecordsInBounds(a, init);
      FaceRecordsArePrefix(last.mesh.indices, last.mesh.numFaceVertices);
      var r := MeshRecords(shapes);
      assert r == MeshRecords(init) + ShapeRecords(last);
      forall j | 0 <= j < |r| ensures IndexInBounds(a, r[j]) {
        if j >= |MeshRecords(init)| {
          assert r[j] == last.mesh.indices[j - |MeshRecords(init)|];
        }
      }
    }
  }

  /** The reference vertex sequence: one vertex per visited record, in order. */
  function MeshVertices(a: Attrib, shapes: seq<Shape>): (vs: seq<Vertex>)
    requires WellFormed(a, shapes)
    ensures AllIndexed(shapes)
    ensures |vs| == TotalCorners(shapes)
    ensures forall j :: 0 <= j < |vs| ==> Emits(a, MeshRecords(shapes)[j], vs[j])
  {
    MeshRecordsInBounds(a, shapes);
    var recs := MeshRecords(shapes);
    seq(|recs|, j requires 0 <= j < |recs| => MakeVertex(a, recs[j]))
  }

  /** The reference index sequence for `n` emitted vertices: each index is
      its own position, truncated to 32 bits. */
  function MeshIndices(n: nat): (ix: seq<nat>)
    ensures |ix| == n
    ensures forall j :: 0 <= j < n ==> ix[j] < Uint32Modulus && ix[j] <= j
    ensures n <= Uint32Modulus ==> forall j :: 0 <= j < n ==> ix[j] == j
  {
    seq(n, j requires 0 <= j => j % Uint32Modulus)
  }

  /** The constructor's triple loop. The j-th vertex is built from the j-th
      visited record and the j-th index is j (modulo 2^32), across shape
      boundaries, because `index_start` is taken from the output length at
      the start of every shape and `index_offset` restarts at zero. */
  method Flatten(a: Attrib, shapes: seq<Shape>) returns (vertices: seq<Vertex>, indices: seq<nat>)
    requires WellFormed(a, shapes)
    ensures AllIndexed(shapes)
    ensures |vertices| == |indices| == TotalCorners(shapes)
    ensures forall j :: 0 <= j < |indices| ==> indices[j] < |vertices|
    ensures TotalCorners(shapes) <= Uint32Modulus ==> forall j :: 0 <= j < |indices| ==> indices[j] == j
    ensures forall j :: 0 <= j < |vertices| ==> Emits(a, MeshRecords(shapes)[j], vertices[j])
    ensures vertices == MeshVertices(a, shapes)
    ensures indices == MeshIndices(TotalCorners(shapes))
  {
    MeshRecordsInBounds(a, shapes);
    vertices := [];
    indices := [];
    var s := 0;
    while s < |shapes|
      invariant 0 <= s <= |shapes|
      invariant AllIndexed(shapes[..s])
      invariant |vertices| == |indices| == TotalCorners(shapes[..s])
      invariant forall j :: 0 <= j < |indices| ==> indices[j] == j % Uint32Modulus
      invariant forall j :: 0 <= j < |vertices| ==> Emits(a, MeshRecords(shapes[..s])[j], vertices[j])
    {
      assert ShapeWellFormed(a, shapes[s]);
      ghost var before := vertices;
      vertices, indices := FlattenShape(a, shapes[s], vertices, indices);
      NextShapeRecords(a, shapes, s, before, vertices);
      s := s + 1;
    }
    assert shapes[..s] == shapes;
    var reference := MeshVertices(a, shapes);
    assert forall j :: 0 <= j < |vertices| ==> vertices[j] == reference[j];
  }

  /** One more shape's vertices, appended after those of the shapes before
      it, are the vertices of the longer prefix. */
  lemma NextShapeRecords(a: Attrib, shapes: seq<Shape>, s: nat, before: seq<Vertex>, after: seq<Vertex>)
    requires s < |shapes| && AllIndexed(shapes[..s]) && ShapeIndexed(shapes[s])
    requires |before| == TotalCorners(shapes[..s])
    requires |after| == |before| + Corners(shapes[s]) && after[..|before|] == before
    requires forall j :: 0 <= j < |before| ==> Emits(a, MeshRecords(shapes[..s])[j], before[j])
    requires forall k :: 0 <= k < Corners(shapes[s]) ==> Emits(a, ShapeRecords(shapes[s])[k], after[|before| + k])
    ensures AllIndexed(shapes[..s + 1]) && |after| == TotalCorners(shapes[..s + 1])
    ensures forall j :: 0 <= j < |after| ==> Emits(a, MeshRecords(shapes[..s + 1])[j], after[j])
  {
    var prefix := shapes[..s + 1];
    assert prefix[..s] == shapes[..s];
    assert prefix[s] == shapes[s];
    assert AllIndexed(prefix);
    assert MeshRecords(prefix) == MeshRecords(shapes[..s]) + ShapeRecords(shapes[s]);
    forall j | 0 <= j < |after| ensures Emits(a, MeshRecords(prefix)[j], after[j]) {
      if j < |before| {
        assert after[j] == before[j];
      } else {
        assert MeshRecords(prefix)[j] == ShapeRecords(shapes[s])[j - |before|];
      }
    }
  }

  /** The body of the shape loop: appends one vertex and one index per
      face-vertex of `sh`, in face order, leaving the output so far intact. */
  method FlattenShape(a: Attrib, sh: Shape, vertices: seq<Vertex>, indices: seq<nat>)
    returns (vertices': seq<Vertex>, indices': seq<nat>)
    requires ShapeWellFormed(a, sh)
    requires |vertices| == |indices|
    requires forall j :: 0 <= j < |indices| ==> indices[j] == j % Uint32Modulus
    ensures |vertices'| == |indices'| == |vertices| + Corners(sh)
    ensures vertices'[..|vertices|] == vertices
    ensures forall j :: 0 <= j < |indices'| ==> indices'[j] == j % Uint32Modulus
    ensures forall k :: 0 <= k < Corners(sh) ==> Emits(a, ShapeRecords(sh)[k], vertices'[|vertices| + k])
  {
    var mesh := sh.mesh;
    var fvs := mesh.numFaceVertices;
    vertices' := vertices;
    indices' := indices;
    var indexStart := |indices'|;
    var indexOffset := 0;
    var f := 0;
    assert fvs[..0] == [];
    while f < |fvs|
      invariant 0 <= f <= |fvs|
      invariant indexOffset == Sum(fvs[..f]) <= Sum(fvs)
      invariant |vertices'| == |indices'| == indexStart + indexOffset
      invariant vertices'[..indexStart] == vertices
      invariant forall j :: 0 <= j < |indices'| ==> indices'[j] == j % Uint32Modulus
      invariant forall k :: 0 <= k < indexOffset ==> Emits(a, mesh.indices[k], vertices'[indexStart + k])
    {
      var fv := fvs[f];
      SumSnoc(fvs, f);
      SumPrefixBound(fvs, f + 1);
      var v := 0;
      while v < fv
        invariant 0 <= v <= fv
        invariant |vertices'| == |indices'| == indexStart + indexOffset + v
        invariant vertices'[..indexStart] == vertices
        invariant forall j :: 0 <= j < |indices'| ==> indices'[j] == j % Uint32Modulus
        invariant forall k :: 0 <= k < indexOffset + v ==> Emits(a, mesh.indices[k], vertices'[indexStart + k])
      {
        var idx := mesh.indices[indexOffset + v];
        var vertex := MakeVertex(a, idx);
        vertices' := vertices' + [vertex];
        indices' := indices' + [(indexOffset + indexStart + v) % Uint32Modulus];
        v := v + 1;
      }
      indexOffset := indexOffset + fv;
      f := f + 1;
    }
    assert fvs[..f] == fvs;
    FaceRecordsArePrefix(mesh.indices, fvs);
  }

  /** A single triangle with distinct positions and normals and no texture
      coordinates or colours: three vertices, indices 0, 1, 2, and the
      uv and colour fields left at their zero defaults. */
  lemma SingleTriangle(p: seq<real>, n: seq<real>, a: Attrib, shapes: seq<Shape>)
    requires |p| == 9 && |n| == 9
    requires a == Attrib(p, n, [], [])
    requires shapes == [Shape("triangle", Mesh([3], [Index(0, 0, -1), Index(1, 1, -1), Index(2, 2, -1)]))]
    ensures WellFormed(a, shapes)
    ensures TotalCorners(shapes) == 3
    ensures MeshIndices(TotalCorners(shapes)) == [0, 1, 2]
    ensures forall j :: 0 <= j < 3 ==>
              && MeshVertices(a, shapes)[j].position == Vec3At(p, j)
              && MeshVertices(a, shapes)[j].normal == Vec3At(n, j)
              && MeshVertices(a, shapes)[j].uv == Zero2
              && MeshVertices(a, shapes)[j].color == Zero3
  {
    var recs := [Index(0, 0, -1), Index(1, 1, -1), Index(2, 2, -1)];
    var sh := shapes[0];
    assert [3][..0] == [];
    assert Sum([3]) == 3;
    assert WellFormed(a, shapes);
    assert shapes[..0] == [];
    assert TotalCorners(shapes) == 3;
    FaceRecordsArePrefix(recs, [3]);
    assert MeshRecords(shapes) == recs;
    var vs := MeshVertices(a, shapes);
    forall j | 0 <= j < 3
      ensures vs[j].position == Vec3At(p, j) && vs[j].normal == Vec3At(n, j)
    {
      assert Emits(a, recs[j], vs[j]);
      assert recs[j].vertexIndex == j && recs[j].normalIndex == j;
    }
  }
}

=== FILE: mesh_model.dfy ===
/** `Model`: loads a parsed mesh into two device-local buffers through
    host-visible staging buffers, draws it, and releases it. */
module MeshModel {

  import opened Optional
  import opened TinyObj
  import opened MeshFlattening
  import opened VertexLayout
  import opened Vulkan

  /** What a constructed model keeps: its name, the two device-local
      buffers and the number of indices to draw. */
  datatype Model = Model(id: string, vertexBuffer: DeviceBuffer, indexBuffer: DeviceBuffer, indexCount: nat)

  /** The constructor either stops at a parse error, having built nothing,
      or finishes; the copy command buffer it allocated stays with its pool. */
  datatype LoadOutcome = ParseFailed | Loaded(model: Model, copyCommandBuffer: Handle)

  /** The handles the model owns and its destructor releases. */
  function Owned(m: Model): (r: set<Handle>) {
    {m.vertexBuffer.buffer, m.vertexBuffer.memory, m.indexBuffer.buffer, m.indexBuffer.memory}
  }

  /** Both buffers and their memory are live, and the two buffers are
      distinct objects with distinct memory. */
  predicate Owns(d: Device, m: Model) {
    && HoldsBuffer(d, m.vertexBuffer)
    && HoldsBuffer(d, m.indexBuffer)
    && m.vertexBuffer.buffer != m.indexBuffer.buffer
    && m.vertexBuffer.memory != m.indexBuffer.memory
  }

  /** The buffers hold vertex and index data, the draw reads no more indices
      than the index buffer holds, and none of those indices is past the end
      of the vertex buffer. */
  predicate ReadyToDraw(d: Device, m: Model) {
    && HasVertexData(d, m.vertexBuffer.buffer)
    && HasIndexData(d, m.indexBuffer.buffer)
    && var vs := d.slots[m.vertexBuffer.buffer].value.contents.vertices;
       var ix := d.slots[m.indexBuffer.buffer].value.contents.indices;
       && m.indexCount <= |ix|
       && forall k :: 0 <= k < m.indexCount ==> ix[k] < |vs|
  }

  /** The two copies the constructor records when its first new handle is
      `n`: each staging buffer in full into its device-local buffer. */
  function CopyRegions(n: Handle, vertices: seq<Vertex>, indices: seq<nat>): (r: seq<CopyRegion>) {
    [CopyRegion(n, n + 4, |vertices| * VertexStride), CopyRegion(n + 2, n + 6, |indices| * IndexStride)]
  }

  /** The four `createBuffer` results: the vertex and index staging buffers
      (host-visible, holding the data) and the device-local vertex and index
      buffers of the same byte sizes, each followed by its memory. */
  function StagedSlots(vertices: seq<Vertex>, indices: seq<nat>, vertexData: Contents, indexData: Contents): (r: seq<Option<Object>>) {
    var vbSize := |vertices| * VertexStride;
    var ibSize := |indices| * IndexStride;
    [Some(Buffer(StagingUsage, HostVisibleCoherent, vbSize, VertexData(vertices))), Some(Memory(vbSize)),
     Some(Buffer(StagingUsage, HostVisibleCoherent, ibSize, IndexData(indices))), Some(Memory(ibSize)),
     Some(Buffer(VertexUsage, DeviceLocal, vbSize, vertexData)), Some(Memory(vbSize)),
     Some(Buffer(IndexUsage, DeviceLocal, ibSize, indexData)), Some(Memory(ibSize))]
  }

  /** Every slot the constructor adds from handle `n` on, in creation order:
      the staging buffers and their memory (destroyed again), the filled
      device-local buffers and their memory, the copy command buffer, and
      the fence (destroyed again). */
  function UploadSlots(n: Handle, vertices: seq<Vertex>, indices: seq<nat>): (r: seq<Option<Object>>) {
    var vbSize := |vertices| * VertexStride;
    var ibSize := |indices| * IndexStride;
    [None, None, None, None,
     Some(Buffer(VertexUsage, DeviceLocal, vbSize, VertexData(vertices))), Some(Memory(vbSize)),
     Some(Buffer(IndexUsage, DeviceLocal, ibSize, IndexData(indices))), Some(Memory(ibSize)),
     Some(CommandBuffer(CopyRegions(n, vertices, indices))),
     None]
  }

  /** The constructor. On a parse error nothing is built and the device is
      untouched. Otherwise the flattened vertices and indices are staged in
      two host-visible buffers, copied by one command buffer into two
      device-local buffers of the same sizes, and after the fence signals
      the fence and both staging buffers are destroyed: the only new handles
      left are the two device-local buffers (with their memory) and the
      pool-owned command buffer, and the buffers are ready to draw. */
  method Load(d: Device, id: string, parsed: ParseResult) returns (outcome: LoadOutcome, d': Device)
    requires parsed.err == [] ==> WellFormed(parsed.attrib, parsed.shapes) && TotalCorners(parsed.shapes) > 0
    ensures outcome.ParseFailed? <==> parsed.err != []
    ensures outcome.ParseFailed? ==> d' == d
    ensures outcome.Loaded? ==>
      var n := Next(d);
      var corners := TotalCorners(parsed.shapes);
      && outcome.model == Model(id, DeviceBuffer(n + 4, n + 5, corners * VertexStride),
                                DeviceBuffer(n + 6, n + 7, corners * IndexStride), corners % Uint32Modulus)
      && outcome.copyCommandBuffer == n + 8
      && d'.slots == d.slots + UploadSlots(n, MeshVertices(parsed.attrib, parsed.shapes), MeshIndices(corners))
    ensures outcome.Loaded? ==> Owned(outcome.model) !! Live(d) && outcome.copyCommandBuffer !in Live(d)
    ensures outcome.Loaded? ==> Live(d') == Live(d) + Owned(outcome.model) + {outcome.copyCommandBuffer}
    ensures outcome.Loaded? ==> Owns(d', outcome.model)
    ensures outcome.Loaded? ==> ReadyToDraw(d', outcome.model)
  {
    if parsed.err != [] {
      outcome := ParseFailed;
      d' := d;
      return;
    }
    var vertices, indices := Flatten(parsed.attrib, parsed.shapes);
    var m, copyCmd;
    m, copyCmd, d' := Upload(d, id, vertices, indices);
    outcome := Loaded(m, copyCmd);
    UploadLive(d.slots, vertices, indices);
    IndicesInRange(TotalCorners(parsed.shapes));
  }

  /** The live handles after the constructor: those before, plus the two
      device-local buffers with their memory and the command buffer. */
  lemma UploadLive(slots: seq<Option<Object>>, vertices: seq<Vertex>, indices: seq<nat>)
    ensures var n := |slots|;
      LiveIn(slots + UploadSlots(n, vertices, indices)) == LiveIn(slots) + {n + 4, n + 5, n + 6, n + 7} + {n + 8}
    ensures {|slots| + 4, |slots| + 5, |slots| + 6, |slots| + 7, |slots| + 8} !! LiveIn(slots)
  {
    var n := |slots|;
    LiveAppend(slots, UploadSlots(n, vertices, indices), {n + 4, n + 5, n + 6, n + 7} + {n + 8});
  }

  /** The first `n mod 2^32` reference indices are all below `n`. */
  lemma IndicesInRange(n: nat)
    ensures n % Uint32Modulus <= |MeshIndices(n)|
    ensures forall k :: 0 <= k < n % Uint32Modulus ==> MeshIndices(n)[k] < n
  {
  }

  /** Everything after the flattening loop: stage, copy, clean up. */
  method Upload(d: Device, id: string, vertices: seq<Vertex>, indices: seq<nat>)
    returns (m: Model, copyCmd: Handle, d': Device)
    requires |vertices| > 0 && |indices| > 0
    ensures m == Model(id, DeviceBuffer(Next(d) + 4, Next(d) + 5, |vertices| * VertexStride),
                       DeviceBuffer(Next(d) + 6, Next(d) + 7, |indices| * IndexStride), |indices| % Uint32Modulus)
    ensures copyCmd == Next(d) + 8
    ensures d'.slots == d.slots + UploadSlots(Next(d), vertices, indices)
  {
    var n := Next(d);
    var d1 := CreateUploadBuffers(d, vertices, indices);
    var d2;
    copyCmd, d2 := CopyToDevice(d1, d.slots, vertices, indices);
    d' := DestroyStaging(d2, d.slots, vertices, indices);
    m := Model(id, DeviceBuffer(n + 4, n + 5, |vertices| * VertexStride), DeviceBuffer(n + 6, n + 7, |indices| * IndexStride),
               |indices| % Uint32Modulus);
  }

  /** The four `createBuffer` calls: two host-visible staging buffers created
      with the data, and two device-local buffers of the same byte sizes. */
  method CreateUploadBuffers(d: Device, vertices: seq<Vertex>, indices: seq<nat>) returns (d': Device)
    requires |vertices| > 0 && |indices| > 0
    ensures d'.slots == d.slots + StagedSlots(vertices, indices, Undefined, Undefined)
  {
    var vbSize := |vertices| * VertexStride;
    var ibSize := |indices| * IndexStride;
    var b1, b2, b3, b4, d1, d2, d3;
    b1, d1 := CreateBuffer(d, StagingUsage, HostVisibleCoherent, vbSize, VertexData(vertices));
    b2, d2 := CreateBuffer(d1, StagingUsage, HostVisibleCoherent, ibSize, IndexData(indices));
    b3, d3 := CreateBuffer(d2, VertexUsage, DeviceLocal, vbSize, Undefined);
    b4, d' := CreateBuffer(d3, IndexUsage, DeviceLocal, ibSize, Undefined);
  }

  /** The transfer: one command buffer recording two full-size copies,
      submitted with a new fence, waited on, and the fence destroyed. Each
      device-local buffer ends up with its staging buffer's contents. */
  method CopyToDevice(d: Device, base: seq<Option<Object>>, vertices: seq<Vertex>, indices: seq<nat>) returns (copyCmd: Handle, d': Device)
    requires |vertices| > 0 && |indices| > 0
    requires d.slots == base + StagedSlots(vertices, indices, Undefined, Undefined)
    ensures copyCmd == |base| + 8
    ensures d'.slots == base + (StagedSlots(vertices, indices, VertexData(vertices), IndexData(indices))
                                + [Some(CommandBuffer(CopyRegions(|base|, vertices, indices))), None])
  {
    var n := |base|;
    var cs := CopyRegions(n, vertices, indices);
    var d1, d2, d3, d4, fence;
    copyCmd, d1 := CreateObject(d, CommandBuffer([]));
    d2 := CmdCopyBuffer(d1, copyCmd, n, n + 4, |vertices| * VertexStride);
    assert d2.slots == d.slots + [Some(CommandBuffer([cs[0]]))] by {
      assert [] + [cs[0]] == [cs[0]];
    }
    d3 := CmdCopyBuffer(d2, copyCmd, n + 2, n + 6, |indices| * IndexStride);
    assert d3.slots == d.slots + [Some(CommandBuffer(cs))] by {
      assert [cs[0]] + [cs[1]] == cs;
    }
    fence, d4 := CreateObject(d3, Fence(false));
    var cmd := Some(CommandBuffer(cs));
    var t0 := StagedSlots(vertices, indices, Undefined, Undefined) + [cmd, Some(Fence(false))];
    var t2 := StagedSlots(vertices, indices, VertexData(vertices), IndexData(indices)) + [cmd, Some(Fence(false))];
    AppendTwo(base, StagedSlots(vertices, indices, Undefined, Undefined), cmd, Some(Fence(false)));
    var d5 := SubmitAndWait(d4, copyCmd, fence);
    Copied(base, vertices, indices, cmd, t0, t2);
    assert d5.slots == (base + t2)[n + 9 := Some(Fence(true))];
    d' := DestroyObject(d5, fence);
    UpdateAfter(base, t2, 9, Some(Fence(true)));
    UpdateAfter(base, t2[9 := Some(Fence(true))], 9, None);
    ClearLast(StagedSlots(vertices, indices, VertexData(vertices), IndexData(indices)), cmd, Some(Fence(false)), Some(Fence(true)));
  }

  /** Running the two recorded copies fills each device-local buffer with
      its staging buffer's contents and changes nothing else. */
  lemma Copied(base: seq<Option<Object>>, vertices: seq<Vertex>, indices: seq<nat>,
                cmd: Option<Object>, before: seq<Option<Object>>, after: seq<Option<Object>>)
    requires cmd == Some(CommandBuffer(CopyRegions(|base|, vertices, indices)))
    requires before == StagedSlots(vertices, indices, Undefined, Undefined) + [cmd, Some(Fence(false))]
    requires after == StagedSlots(vertices, indices, VertexData(vertices), IndexData(indices)) + [cmd, Some(Fence(false))]
    ensures ApplyCopies(base + before, CopyRegions(|base|, vertices, indices)) == base + after
  {
    var n := |base|;
    var cmd := Some(CommandBuffer(CopyRegions(n, vertices, indices)));
    var cs := CopyRegions(n, vertices, indices);
    var t0 := StagedSlots(vertices, indices, Undefined, Undefined) + [cmd, Some(Fence(false))];
    var t1 := StagedSlots(vertices, indices, VertexData(vertices), Undefined) + [cmd, Some(Fence(false))];
    var t2 := StagedSlots(vertices, indices, VertexData(vertices), IndexData(indices)) + [cmd, Some(Fence(false))];
    var x1 := Some(t0[4].value.(contents := VertexData(vertices)));
    assert (base + t0)[n] == t0[0] && (base + t0)[n + 4] == t0[4];
    ApplyWholeCopy(base + t0, cs[0]);
    UpdateAfter(base, t0, 4, x1);
    FillVertexBuffer(vertices, indices, Undefined, VertexData(vertices), [cmd, Some(Fence(false))]);
    var x2 := Some(t1[6].value.(contents := IndexData(indices)));
    assert (base + t1)[n + 2] == t1[2] && (base + t1)[n + 6] == t1[6];
    ApplyWholeCopy(base + t1, cs[1]);
    UpdateAfter(base, t1, 6, x2);
    FillIndexBuffer(vertices, indices, VertexData(vertices), IndexData(indices), [cmd, Some(Fence(false))]);
    assert cs[1..][1..] == [];
    assert ApplyCopies(base + t0, cs) == ApplyCopies(base + t1, cs[1..]);
    assert ApplyCopies(base + t1, cs[1..]) == ApplyCopies(base + t2, []);
    assert ApplyCopies(base + t2, []) == base + t2;
  }

  /** Setting the contents of the staged device-local vertex buffer. */
  lemma FillVertexBuffer(vertices: seq<Vertex>, indices: seq<nat>, indexData: Contents, vertexData: Contents, rest: seq<Option<Object>>)
    ensures var t := StagedSlots(vertices, indices, Undefined, indexData) + rest;
      t[4 := Some(t[4].value.(contents := vertexData))] == StagedSlots(vertices, indices, vertexData, indexData) + rest
  {
  }

  /** Setting the contents of the staged device-local index buffer. */
  lemma FillIndexBuffer(vertices: seq<Vertex>, indices: seq<nat>, vertexData: Contents, indexData: Contents, rest: seq<Option<Object>>)
    ensures var t := StagedSlots(vertices, indices, vertexData, Undefined) + rest;
      t[6 := Some(t[6].value.(contents := indexData))] == StagedSlots(vertices, indices, vertexData, indexData) + rest
  {
  }

  /** Destroying both staging buffers and freeing their memory. */
  method DestroyStaging(d: Device, base: seq<Option<Object>>, vertices: seq<Vertex>, indices: seq<nat>) returns (d': Device)
    requires d.slots == base + (StagedSlots(vertices, indices, VertexData(vertices), IndexData(indices))
                                + [Some(CommandBuffer(CopyRegions(|base|, vertices, indices))), None])
    ensures d'.slots == base + UploadSlots(|base|, vertices, indices)
  {
    var n := |base|;
    var t := StagedSlots(vertices, indices, VertexData(vertices), IndexData(indices))
             + [Some(CommandBuffer(CopyRegions(n, vertices, indices))), None];
    var d1 := DestroyBuffer(d, DeviceBuffer(n, n + 1, |vertices| * VertexStride));
    d' := DestroyBuffer(d1, DeviceBuffer(n + 2, n + 3, |indices| * IndexStride));
    UpdateAfter(base, t, 0, None);
    UpdateAfter(base, t[0 := None], 1, None);
    UpdateAfter(base, t[0 := None][1 := None], 2, None);
    UpdateAfter(base, t[0 := None][1 := None][2 := None], 3, None);
    ClearStaging(n, vertices, indices);
  }

  /** With the staging buffers and their memory gone, what the constructor
      added is exactly `UploadSlots`. */
  lemma ClearStaging(n: Handle, vertices: seq<Vertex>, indices: seq<nat>)
    ensures (StagedSlots(vertices, indices, VertexData(vertices), IndexData(indices))
             + [Some(CommandBuffer(CopyRegions(n, vertices, indices))), None])[0 := None][1 := None][2 := None][3 := None]
            == UploadSlots(n, vertices, indices)
  {
  }

  /** Signalling and then destroying the last slot leaves it empty. */
  lemma ClearLast<T>(s: seq<Option<T>>, x: Option<T>, y: Option<T>, z: Option<T>)
    ensures (s + [x, y])[|s| + 1 := z][|s| + 1 := None] == s + [x, None]
  {
  }

  /** Appending two slots one at a time. */
  lemma AppendTwo<T>(a: seq<T>, b: seq<T>, x: T, y: T)
    ensures a + b + [x] + [y] == a + (b + [x, y])
  {
  }

  /** Updating a slot past a prefix updates the suffix alone. */
  lemma UpdateAfter(base: seq<Option<Object>>, tail: seq<Option<Object>>, j: nat, x: Option<Object>)
    requires j < |tail|
    ensures (base + tail)[|base| + j := x] == base + tail[j := x]
  {
  }

  /** The destructor: both device-local buffers destroyed and their memory
      freed; exactly the model's four handles stop being live. */
  method Release(d: Device, m: Model) returns (d': Device)
    requires Owns(d, m)
    ensures d'.slots == d.slots[m.vertexBuffer.buffer := None][m.vertexBuffer.memory := None]
                                [m.indexBuffer.buffer := None][m.indexBuffer.memory := None]
    ensures Live(d') == Live(d) - Owned(m)
  {
    var d1 := DestroyBuffer(d, m.vertexBuffer);
    d' := DestroyBuffer(d1, m.indexBuffer);
    LiveClear(d.slots, m.vertexBuffer.buffer);
    LiveClear(d.slots[m.vertexBuffer.buffer := None], m.vertexBuffer.memory);
    LiveClear(d1.slots, m.indexBuffer.buffer);
    LiveClear(d1.slots[m.indexBuffer.buffer := None], m.indexBuffer.memory);
  }

  /** `draw`: appends to the frame's commands a bind of the vertex buffer at
      binding 0, a bind of the index buffer with 32-bit indices, both at
      offset 0, and one indexed draw of `indexCount` indices and one
      instance from the start of both buffers. */
  function Draw(m: Model, cmds: seq<DrawCommand>): (r: seq<DrawCommand>)
    ensures |r| == |cmds| + 3 && r[..|cmds|] == cmds
    ensures r[|cmds|] == BindVertexBuffer(0, m.vertexBuffer.buffer, 0)
    ensures r[|cmds| + 1] == BindIndexBuffer(m.indexBuffer.buffer, 0, Uint32Indices)
    ensures r[|cmds| + 2] == DrawIndexed(m.indexCount, 1, 0, 0, 0)
  {
    cmds + [BindVertexBuffer(0, m.vertexBuffer.buffer, 0),
            BindIndexBuffer(m.indexBuffer.buffer, 0, Uint32Indices),
            DrawIndexed(m.indexCount, 1, 0, 0, 0)]
  }

  /** Replaying what `draw` records succeeds exactly when the model is ready
      to draw, and then fetches the first `indexCount` entries of its index
      buffer, each naming a vertex of its vertex buffer. */
  lemma DrawFetchesIndexRange(d: Device, m: Model)
    ensures Replay(d, Draw(m, []), None, None).Some? <==> ReadyToDraw(d, m)
    ensures ReadyToDraw(d, m) ==>
      Replay(d, Draw(m, []), None, None) == Some(d.slots[m.indexBuffer.buffer].value.contents.indices[..m.indexCount])
  {
    var cmds := Draw(m, []);
    var vb, ib := m.vertexBuffer.buffer, m.indexBuffer.buffer;
    assert cmds[1..][1..][1..] == [];
    assert Replay(d, cmds, None, None) == Replay(d, cmds[1..][1..], Some(vb), Some(ib));
    if ReadyToDraw(d, m) {
      var ix := d.slots[ib].value.contents.indices;
      var fetched := Fetch(d, Some(vb), Some(ib), m.indexCount, 0, 0);
      assert fetched.Some?;
      assert fetched.value + [] == ix[..m.indexCount];
    }
  }

  /** A model built and then destroyed leaves behind, of everything the
      constructor created, only the pool-owned copy command buffer. */
  method LoadAndRelease(d: Device, id: string, parsed: ParseResult) returns (outcome: LoadOutcome, d': Device)
    requires parsed.err == [] ==> WellFormed(parsed.attrib, parsed.shapes) && TotalCorners(parsed.shapes) > 0
    ensures outcome.ParseFailed? <==> parsed.err != []
    ensures outcome.ParseFailed? ==> d' == d
    ensures outcome.Loaded? ==> Live(d') == Live(d) + {outcome.copyCommandBuffer} && |d'.slots| == |d.slots| + 10
  {
    var d1;
    outcome, d1 := Load(d, id, parsed);
    if outcome.ParseFailed? {
      d' := d1;
    } else {
      d' := Release(d1, outcome.model);
    }
  }
}

=== FILE: optional.dfy ===
/** A value that may be absent: the model's stand-in for a nullable pointer. */
module Optional {

  datatype Option<+T> = None | Some(value: T)
}

=== FILE: projectile.dfy ===
/** `Projectile`: a shot that moves along a fixed direction, keeps its model
    matrix in a persistently mapped uniform buffer, and draws through the
    model it shares with the other shots. The `updated` flag marks the
    matrix as stale; every update refreshes it and clears the flag. */
module ProjectileEntity {

  import opened Glm
  import opened Optional
  import opened Vulkan
  import opened MeshModel

  /** `sizeof(uniformData)`: one 4x4 float matrix. */
  const MatrixBlockSize: nat := 64

  /** The one binding of the projectile's set layout: a uniform buffer at
      binding 0, one descriptor, read by the vertex stage. */
  const UniformBinding := LayoutBinding(0, UniformBufferDescriptor, 1, VertexStage)

  /** What `allocateResources` makes: the uniform buffer, the set layout,
      and the descriptor set drawn from the caller's pool. */
  datatype Resources = Resources(ubo: DeviceBuffer, descriptorSetLayout: Handle, descriptorSet: Handle)

  datatype Projectile = Projectile(
    model: Option<Model>,
    position: Vec3,
    origin: Vec3,
    direction: Vec3,
    speed: Vec3,
    size: Vec3,
    updated: bool,
    uniformData: Mat4,
    resources: Option<Resources>)

  /** The resources are live and are what `allocateResources` made: a
      host-visible uniform buffer of one matrix block with its memory, a
      layout with the single uniform binding, and a set of that layout whose
      binding 0 names the buffer; all five handles are distinct. */
  predicate Allocated(d: Device, p: Projectile) {
    && p.resources.Some?
    && var r := p.resources.value;
       && HoldsBuffer(d, r.ubo)
       && r.ubo.size == MatrixBlockSize
       && d.slots[r.ubo.buffer].value.usage == UniformUsage
       && d.slots[r.ubo.buffer].value.memory == HostVisibleCoherent
       && IsLive(d, r.descriptorSetLayout) && d.slots[r.descriptorSetLayout].value == SetLayout([UniformBinding])
       && IsLive(d, r.descriptorSet) && d.slots[r.descriptorSet].value == DescriptorSet(r.descriptorSetLayout, map[0 := r.ubo.buffer])
       && r.ubo.buffer != r.ubo.memory
       && r.descriptorSetLayout !in {r.ubo.buffer, r.ubo.memory}
       && r.descriptorSet !in {r.ubo.buffer, r.ubo.memory, r.descriptorSetLayout}
  }

  /** The mapped uniform buffer holds the projectile's current matrix. */
  predicate Synced(d: Device, p: Projectile) {
    && p.resources.Some?
    && IsBuffer(d, p.resources.value.ubo.buffer)
    && d.slots[p.resources.value.ubo.buffer].value.contents == MatrixData(p.uniformData)
  }

  /** The constructor: starts at `position`, which is also its origin, moves
      along `direction` at 7.5 units per second on every axis, and starts
      stale. `uniformData` is the matrix the member holds before the first
      update; nothing is allocated yet. */
  function New(model: Option<Model>, position: Vec3, direction: Vec3, uniformData: Mat4): (p: Projectile)
    ensures p.position == p.origin == position && p.direction == direction && p.model == model
    ensures p.speed == Splat(7.5) && p.size == Vec3(0.25, 0.5, 0.25)
    ensures p.updated && p.resources.None?
  {
    Projectile(model, position, position, direction, Splat(7.5), Vec3(0.25, 0.5, 0.25), true, uniformData, None)
  }

  /** `allocateResources`: a uniform buffer created holding the current
      matrix, a layout with the single uniform binding, and a set of that
      layout written at binding 0 with the buffer. Exactly those four
      handles become live, and the buffer starts in sync. */
  method AllocateResources(p: Projectile, d: Device) returns (p': Projectile, d': Device)
    ensures var n := Next(d);
      p' == p.(resources := Some(Resources(DeviceBuffer(n, n + 1, MatrixBlockSize), n + 2, n + 3)))
    ensures d'.slots == d.slots + [Some(Buffer(UniformUsage, HostVisibleCoherent, MatrixBlockSize, MatrixData(p.uniformData))),
                                   Some(Memory(MatrixBlockSize)),
                                   Some(SetLayout([UniformBinding])),
                                   Some(DescriptorSet(Next(d) + 2, map[0 := Next(d)]))]
    ensures Live(d') == Live(d) + {Next(d), Next(d) + 1, Next(d) + 2, Next(d) + 3}
    ensures Allocated(d', p') && Synced(d', p')
  {
    var n := Next(d);
    var ubo, d1 := CreateBuffer(d, UniformUsage, HostVisibleCoherent, MatrixBlockSize, MatrixData(p.uniformData));
    var layout, d2 := CreateObject(d1, SetLayout([UniformBinding]));
    var dset, d3 := CreateObject(d2, DescriptorSet(layout, map[]));
    assert DeclaresUniform(d3.slots[layout].value.bindings, 0) by {
      assert d3.slots[layout].value.bindings[0] == UniformBinding;
    }
    d' := WriteDescriptor(d3, dset, 0, ubo.buffer);
    p' := p.(resources := Some(Resources(ubo, layout, dset)));
    assert d'.slots == d.slots + d'.slots[n..];
    LiveAppend(d.slots, d'.slots[n..], {n, n + 1, n + 2, n + 3});
  }

  /** The position one step of `dt` seconds further along the direction:
      `position += direction * speed * dt`, component by component. */
  function Advance(p: Projectile, dt: real): (r: Vec3) {
    Add(p.position, Scale(Mul(p.direction, p.speed), dt))
  }

  /** `update`: moves the projectile, marks it stale and refreshes it. The
      kinematic fields other than the position, the model and the resources
      are untouched; afterwards the flag is clear, the matrix translates the
      origin to the new position, and the mapped buffer holds the matrix.
      Only the uniform buffer's contents change on the device. */
  method Update(p: Projectile, d: Device, dt: real) returns (p': Projectile, d': Device)
    requires Allocated(d, p)
    ensures p'.position == Advance(p, dt)
    ensures p' == p.(position := p'.position, updated := false, uniformData := p'.uniformData)
    ensures TranslationOf(p'.uniformData) == p'.position
    ensures p'.uniformData == Identity().(c3 := Vec4(p'.position.x, p'.position.y, p'.position.z, 1.0))
    ensures Allocated(d', p') && Synced(d', p') && Live(d') == Live(d)
    ensures var ubo := p.resources.value.ubo.buffer;
      d'.slots == d.slots[ubo := Some(d.slots[ubo].value.(contents := MatrixData(p'.uniformData)))]
  {
    var moved := p.(position := Advance(p, dt), updated := true);
    p', d' := UpdateUniformData(moved, d);
    TranslateIdentity(moved.position);
  }

  /** `updateUniformdata`: a stale projectile gets the identity translated by
      its position as its matrix, copied into the mapped buffer; a clean one
      is left as it is. Either way the flag ends clear. Only the uniform
      buffer's contents change on the device. */
  method UpdateUniformData(p: Projectile, d: Device) returns (p': Projectile, d': Device)
    requires p.updated ==> Allocated(d, p)
    ensures !p'.updated
    ensures p.updated ==> p' == p.(updated := false, uniformData := Translate(Identity(), p.position))
    ensures p.updated ==> Allocated(d', p') && Synced(d', p')
    ensures p.updated ==> d'.slots == d.slots[p.resources.value.ubo.buffer := Some(d.slots[p.resources.value.ubo.buffer].value.(contents := MatrixData(p'.uniformData)))]
    ensures !p.updated ==> p' == p && d' == d
    ensures Live(d') == Live(d)
  {
    if p.updated {
      var m := Translate(Identity(), p.position);
      var ubo := p.resources.value.ubo.buffer;
      d' := WriteMapped(d, ubo, MatrixData(m));
      p' := p.(updated := false, uniformData := m);
      assert LiveIn(d'.slots) == LiveIn(d.slots);
    } else {
      p' := p;
      d' := d;
    }
  }

  /** `draw`: records the model's draw when a model is attached and nothing
      otherwise. */
  function Draw(p: Projectile, cmds: seq<DrawCommand>): (r: seq<DrawCommand>)
    ensures r == cmds <==> p.model.None?
    ensures p.model.Some? ==> r == MeshModel.Draw(p.model.value, cmds)
  {
    if p.model.Some? then MeshModel.Draw(p.model.value, cmds) else cmds
  }

  /** The destructor: the set layout destroyed, then the uniform buffer
      destroyed and its memory freed. The descriptor set belongs to the
      pool it came from and stays live. */
  method Destroy(p: Projectile, d: Device) returns (d': Device)
    requires Allocated(d, p)
    ensures var r := p.resources.value;
      d'.slots == d.slots[r.descriptorSetLayout := None][r.ubo.buffer := None][r.ubo.memory := None]
    ensures var r := p.resources.value;
      Live(d') == Live(d) - {r.descriptorSetLayout, r.ubo.buffer, r.ubo.memory}
    ensures p.resources.value.descriptorSet in Live(d')
  {
    var r := p.resources.value;
    var d1 := DestroyObject(d, r.descriptorSetLayout);
    d' := DestroyBuffer(d1, r.ubo);
    LiveClear(d.slots, r.descriptorSetLayout);
    LiveClear(d1.slots, r.ubo.buffer);
    LiveClear(d1.slots[r.ubo.buffer := None], r.ubo.memory);
  }

  /** A projectile constructed, given its resources, moved any number of
      times and destroyed leaves behind, of what it made, only the
      pool-owned descriptor set. */
  method Lifetime(d: Device, model: Option<Model>, position: Vec3, direction: Vec3, uniformData: Mat4, steps: seq<real>)
    returns (p: Projectile, d': Device)
    ensures Live(d') == Live(d) + {Next(d) + 3}
    ensures !p.updated ==> |steps| > 0
    ensures |steps| > 0 ==> !p.updated && TranslationOf(p.uniformData) == p.position
  {
    p := New(model, position, direction, uniformData);
    p, d' := AllocateResources(p, d);
    var n := Next(d);
    var i := 0;
    while i < |steps|
      invariant 0 <= i <= |steps|
      invariant Allocated(d', p) && Synced(d', p)
      invariant p.resources == Some(Resources(DeviceBuffer(n, n + 1, MatrixBlockSize), n + 2, n + 3))
      invariant Live(d') == Live(d) + {n, n + 1, n + 2, n + 3}
      invariant p.updated <==> i == 0
      invariant i > 0 ==> TranslationOf(p.uniformData) == p.position
    {
      p, d' := Update(p, d', steps[i]);
      i := i + 1;
    }
    d' := Destroy(p, d');
    assert n !in Live(d) && n + 1 !in Live(d) && n + 2 !in Live(d);
  }
}

=== FILE: tinyobj.dfy ===
/** What the OBJ parser hands to the model loader. The parser itself is
    outside the model; its output is the loader's input. */
module TinyObj {

  import opened Glm

  /** `tinyobj::index_t`: one face-vertex's indices into the attribute
      arrays (the parser uses -1 for an absent attribute). */
  datatype Index = Index(vertexIndex: int, normalIndex: int, texcoordIndex: int)

  /** `tinyobj::mesh_t`: the vertex count of every face, and the flat list
      of face-vertex indices, face after face. */
  datatype Mesh = Mesh(numFaceVertices: seq<nat>, indices: seq<Index>)

  datatype Shape = Shape(name: string, mesh: Mesh)

  /** `tinyobj::attrib_t`: flat float arrays; positions, normals and colours
      are stored as xyz triples, texture coordinates as uv pairs. */
  datatype Attrib = Attrib(vertices: seq<real>, normals: seq<real>, texcoords: seq<real>, colors: seq<real>)

  /** The result of `LoadObj` as the loader sees it: the diagnostic string
      (empty on success), the attributes and the shapes. */
  datatype ParseResult = ParseResult(err: string, attrib: Attrib, shapes: seq<Shape>)

  function Sum(xs: seq<nat>): (r: nat) {
    if xs == [] then 0 else Sum(xs[..|xs| - 1]) + xs[|xs| - 1]
  }

  lemma SumSnoc(xs: seq<nat>, i: nat)
    requires i < |xs|
    ensures Sum(xs[..i + 1]) == Sum(xs[..i]) + xs[i]
  {
    assert xs[..i + 1][..i] == xs[..i];
  }

  lemma {:induction false} SumPrefixBound(xs: seq<nat>, i: nat)
    requires i <= |xs|
    ensures Sum(xs[..i]) <= Sum(xs)
    decreases |xs| - i
  {
    if i == |xs| {
      assert xs[..i] == xs;
    } else {
      SumSnoc(xs, i);
      SumPrefixBound(xs, i + 1);
    }
  }

  /** The number of face-vertex occurrences in one shape. */
  function Corners(sh: Shape): (r: nat) {
    Sum(sh.mesh.numFaceVertices)
  }

  /** The number of face-vertex occurrences over all shapes. */
  function TotalCorners(shapes: seq<Shape>): (r: nat) {
    if shapes == [] then 0 else TotalCorners(shapes[..|shapes| - 1]) + Corners(shapes[|shapes| - 1])
  }

  /** `i` names a whole xyz triple of `arr`. */
  predicate Triple(arr: seq<real>, i: int) {
    0 <= i && 3 * i + 2 < |arr|
  }

  /** `i` names a whole uv pair of `arr`. */
  predicate Pair(arr: seq<real>, i: int) {
    0 <= i && 2 * i + 1 < |arr|
  }

  /** `glm::make_vec3(&arr[3 * i])`. */
  function Vec3At(arr: seq<real>, i: int): (r: Vec3)
    requires Triple(arr, i)
  {
    Vec3(arr[3 * i], arr[3 * i + 1], arr[3 * i + 2])
  }

  /** `glm::make_vec2(&arr[2 * i])`. */
  function Vec2At(arr: seq<real>, i: int): (r: Vec2)
    requires Pair(arr, i)
  {
    Vec2(arr[2 * i], arr[2 * i + 1])
  }

  /** Every lookup the loader makes through `idx` stays inside the arrays.
      Texture coordinates and colours are read only when their arrays are
      non-empty, and colours are read through the position index. */
  predicate IndexInBounds(a: Attrib, idx: Index) {
    && Triple(a.vertices, idx.vertexIndex)
    && Triple(a.normals, idx.normalIndex)
    && (|a.texcoords| > 0 ==> Pair(a.texcoords, idx.texcoordIndex))
    && (|a.colors| > 0 ==> Triple(a.colors, idx.vertexIndex))
  }

  /** The face counts do not run past the shape's index list. */
  predicate ShapeIndexed(sh: Shape) {
    Corners(sh) <= |sh.mesh.indices|
  }

  predicate AllIndexed(shapes: seq<Shape>) {
    forall i :: 0 <= i < |shapes| ==> ShapeIndexed(shapes[i])
  }

  predicate ShapeWellFormed(a: Attrib, sh: Shape) {
    && ShapeIndexed(sh)
    && forall k :: 0 <= k < Corners(sh) ==> IndexInBounds(a, sh.mesh.indices[k])
  }

  /** The loader does no bounds checks of its own; this is what it relies on
      the parser to deliver. */
  predicate WellFormed(a: Attrib, shapes: seq<Shape>) {
    forall i :: 0 <= i < |shapes| ==> ShapeWellFormed(a, shapes[i])
  }
}

=== FILE: vertex_layout.dfy ===
/** The data the loader hands to the device: the vertex record, its byte
    stride, and the 32-bit index type. Shared by the flattening loop and the
    device model. */
module VertexLayout {

  import opened Glm

  /** The vertex layout the loader fills in. */
  datatype Vertex = Vertex(position: Vec3, normal: Vec3, uv: Vec2, color: Vec3)

  /** `Vertex vertex{}`: every field value-initialised to zero. */
  const DefaultVertex := Vertex(Zero3, Zero3, Zero2, Zero3)

  /** Indices are stored as `uint32_t`; a wider value is truncated modulo this. */
  const Uint32Modulus: nat := 0x1_0000_0000

  /** `sizeof(Vertex)`: three `vec3` and one `vec2` of 32-bit floats. */
  const VertexStride: nat := 44

  /** `sizeof(uint32_t)`. */
  const IndexStride: nat := 4
}

=== FILE: vulkan.dfy ===
/** The slice of the Vulkan device the model and the projectile touch. The
    device is the sequence of every object it has made, in creation order:
    handle `h` names slot `h`, a create appends a slot, and a destroy empties
    one. Handles are therefore never reused, and every call's effect on the
    device is stated exactly. All calls are assumed to succeed (a failing
    call aborts the program in the source). */
module Vulkan {

  import opened Glm
  import opened Optional
  import opened VertexLayout

  type Handle = nat

  /** `VkBufferUsageFlags`, one field per bit the program sets. */
  datatype Usage = Usage(transferSrc: bool, transferDst: bool, vertexBuffer: bool, indexBuffer: bool, uniformBuffer: bool)

  /** `VK_BUFFER_USAGE_TRANSFER_SRC_BIT` alone: the staging buffers. */
  const StagingUsage := Usage(true, false, false, false, false)
  /** `VK_BUFFER_USAGE_VERTEX_BUFFER_BIT | VK_BUFFER_USAGE_TRANSFER_DST_BIT`. */
  const VertexUsage := Usage(false, true, true, false, false)
  /** `VK_BUFFER_USAGE_INDEX_BUFFER_BIT | VK_BUFFER_USAGE_TRANSFER_DST_BIT`. */
  const IndexUsage := Usage(false, true, false, true, false)
  /** `VK_BUFFER_USAGE_UNIFORM_BUFFER_BIT` alone. */
  const UniformUsage := Usage(false, false, false, false, true)

  /** Host-visible and host-coherent (persistently mapped), or device-local. */
  datatype MemoryKind = HostVisibleCoherent | DeviceLocal

  /** What a buffer holds, at the granularity the model cares about. */
  datatype Contents = Undefined | VertexData(vertices: seq<Vertex>) | IndexData(indices: seq<nat>) | MatrixData(matrix: Mat4)

  datatype DescriptorType = UniformBufferDescriptor
  datatype ShaderStage = VertexStage

  /** `VkDescriptorSetLayoutBinding`. */
  datatype LayoutBinding = LayoutBinding(binding: nat, descriptorType: DescriptorType, descriptorCount: nat, stage: ShaderStage)

  /** `VkBufferCopy` with both offsets zero. */
  datatype CopyRegion = CopyRegion(src: Handle, dst: Handle, size: nat)

  datatype Object =
    | Buffer(usage: Usage, memory: MemoryKind, size: nat, contents: Contents)
    | Memory(size: nat)
    | Fence(signaled: bool)
    | CommandBuffer(copies: seq<CopyRegion>)
    | SetLayout(bindings: seq<LayoutBinding>)
    | DescriptorSet(layout: Handle, writes: map<nat, Handle>)

  /** Slot `h` holds the object handle `h` names, or None once destroyed. */
  datatype Device = Device(slots: seq<Option<Object>>)

  /** The framework's buffer record: a buffer, its backing memory and its size. */
  datatype DeviceBuffer = DeviceBuffer(buffer: Handle, memory: Handle, size: nat)

  /** The handle the next create returns: one past every handle issued. */
  function Next(d: Device): (r: Handle) {
    |d.slots|
  }

  predicate IsLive(d: Device, h: Handle) {
    h < |d.slots| && d.slots[h].Some?
  }

  function LiveIn(slots: seq<Option<Object>>): (r: set<Handle>) {
    set h | 0 <= h < |slots| && slots[h].Some?
  }

  /** The handles of every object made and not yet destroyed. */
  function Live(d: Device): (r: set<Handle>) {
    LiveIn(d.slots)
  }

  predicate IsBuffer(d: Device, h: Handle) {
    IsLive(d, h) && d.slots[h].value.Buffer?
  }

  /** `b` names a live buffer of `b.size` bytes and its live memory. */
  predicate HoldsBuffer(d: Device, b: DeviceBuffer) {
    && IsBuffer(d, b.buffer)
    && d.slots[b.buffer].value.size == b.size
    && IsLive(d, b.memory) && d.slots[b.memory].value.Memory?
  }

  /** Emptying one live slot removes exactly that handle from the live set. */
  lemma LiveClear(slots: seq<Option<Object>>, h: Handle)
    requires h < |slots|
    ensures LiveIn(slots[h := None]) == LiveIn(slots) - {h}
  {
  }

  /** Appending slots keeps the handles live before and adds those of the
      new slots that hold objects. */
  lemma LiveAppend(slots: seq<Option<Object>>, tail: seq<Option<Object>>, added: set<Handle>)
    requires forall h :: h in added <==> |slots| <= h < |slots| + |tail| && tail[h - |slots|].Some?
    ensures LiveIn(slots + tail) == LiveIn(slots) + added
  {
    var s := slots + tail;
    forall h | h in LiveIn(s)
      ensures h in LiveIn(slots) + added
    {
      if h >= |slots| {
        assert s[h] == tail[h - |slots|];
      }
    }
    forall h | h in added
      ensures h in LiveIn(s)
    {
      assert s[h] == tail[h - |slots|];
    }
  }

  method CreateObject(d: Device, o: Object) returns (h: Handle, d': Device)
    ensures h == Next(d) && h !in Live(d)
    ensures d'.slots == d.slots + [Some(o)]
  {
    h := |d.slots|;
    d' := Device(d.slots + [Some(o)]);
  }

  method DestroyObject(d: Device, h: Handle) returns (d': Device)
    requires IsLive(d, h)
    ensures d'.slots == d.slots[h := None]
  {
    d' := Device(d.slots[h := None]);
  }

  /** `VulkanDevice::createBuffer`: a buffer and its memory; a host-visible
      buffer created with data starts out holding that data. Vulkan's valid
      usage rules require a buffer size greater than zero. */
  method CreateBuffer(d: Device, usage: Usage, memory: MemoryKind, size: nat, data: Contents)
    returns (b: DeviceBuffer, d': Device)
    requires size > 0
    ensures b == DeviceBuffer(Next(d), Next(d) + 1, size)
    ensures d'.slots == d.slots + [Some(Buffer(usage, memory, size, data)), Some(Memory(size))]
  {
    var buffer, d1 := CreateObject(d, Buffer(usage, memory, size, data));
    var mem, d2 := CreateObject(d1, Memory(size));
    b := DeviceBuffer(buffer, mem, size);
    d' := d2;
  }

  /** `vkDestroyBuffer` followed by `vkFreeMemory`. */
  method DestroyBuffer(d: Device, b: DeviceBuffer) returns (d': Device)
    requires IsLive(d, b.buffer) && IsLive(d, b.memory) && b.buffer != b.memory
    ensures d'.slots == d.slots[b.buffer := None][b.memory := None]
  {
    var d1 := DestroyObject(d, b.buffer);
    d' := DestroyObject(d1, b.memory);
  }

  /** `vkCmdCopyBuffer` with one region at offset zero: recorded, not yet run.
      The region must be non-empty and fit both buffers, whose usages must
      allow the transfer. */
  method CmdCopyBuffer(d: Device, cmd: Handle, src: Handle, dst: Handle, size: nat) returns (d': Device)
    requires size > 0
    requires IsLive(d, cmd) && d.slots[cmd].value.CommandBuffer?
    requires IsBuffer(d, src) && d.slots[src].value.usage.transferSrc && size <= d.slots[src].value.size
    requires IsBuffer(d, dst) && d.slots[dst].value.usage.transferDst && size <= d.slots[dst].value.size
    ensures d'.slots == d.slots[cmd := Some(CommandBuffer(d.slots[cmd].value.copies + [CopyRegion(src, dst, size)]))]
  {
    d' := Device(d.slots[cmd := Some(CommandBuffer(d.slots[cmd].value.copies + [CopyRegion(src, dst, size)]))]);
  }

  /** Running one copy: a copy of the whole source into a buffer of the same
      size carries the contents over; a partial copy leaves the destination
      undefined at this granularity. */
  function ApplyCopy(slots: seq<Option<Object>>, c: CopyRegion): (r: seq<Option<Object>>)
    ensures |r| == |slots|
  {
    if c.src < |slots| && c.dst < |slots| && slots[c.src].Some? && slots[c.dst].Some?
       && slots[c.src].value.Buffer? && slots[c.dst].value.Buffer? then
      var s := slots[c.src].value;
      var t := slots[c.dst].value;
      slots[c.dst := Some(t.(contents := if c.size == s.size && c.size == t.size then s.contents else Undefined))]
    else slots
  }

  /** A whole-buffer copy between two buffers of the copy's size carries
      the source's contents into the destination and changes nothing else. */
  lemma ApplyWholeCopy(slots: seq<Option<Object>>, c: CopyRegion)
    requires c.src < |slots| && slots[c.src].Some? && slots[c.src].value.Buffer? && slots[c.src].value.size == c.size
    requires c.dst < |slots| && slots[c.dst].Some? && slots[c.dst].value.Buffer? && slots[c.dst].value.size == c.size
    ensures ApplyCopy(slots, c) == slots[c.dst := Some(slots[c.dst].value.(contents := slots[c.src].value.contents))]
  {
  }

  function ApplyCopies(slots: seq<Option<Object>>, cs: seq<CopyRegion>): (r: seq<Option<Object>>)
    ensures |r| == |slots|
    decreases |cs|
  {
    if cs == [] then slots else ApplyCopies(ApplyCopy(slots, cs[0]), cs[1..])
  }

  /** `vkQueueSubmit` of one command buffer with a fence, then
      `vkWaitForFences` until it signals: every recorded copy has run. */
  method SubmitAndWait(d: Device, cmd: Handle, fence: Handle) returns (d': Device)
    requires IsLive(d, cmd) && d.slots[cmd].value.CommandBuffer?
    requires fence < |d.slots| && d.slots[fence] == Some(Fence(false))
    ensures d'.slots == ApplyCopies(d.slots, d.slots[cmd].value.copies)[fence := Some(Fence(true))]
  {
    d' := Device(ApplyCopies(d.slots, d.slots[cmd].value.copies)[fence := Some(Fence(true))]);
  }

  /** A `memcpy` into the persistent mapping of a host-visible buffer. */
  method WriteMapped(d: Device, h: Handle, data: Contents) returns (d': Device)
    requires IsBuffer(d, h) && d.slots[h].value.memory == HostVisibleCoherent
    ensures d'.slots == d.slots[h := Some(d.slots[h].value.(contents := data))]
  {
    d' := Device(d.slots[h := Some(d.slots[h].value.(contents := data))]);
  }

  /** The layout declares `binding` as a uniform-buffer slot. */
  predicate DeclaresUniform(bindings: seq<LayoutBinding>, binding: nat) {
    exists i :: 0 <= i < |bindings| && bindings[i].binding == binding && bindings[i].descriptorType == UniformBufferDescriptor
  }

  /** `vkUpdateDescriptorSets` with one buffer write: the slot must be a
      uniform-buffer binding of the set's layout and the buffer must have
      uniform-buffer usage. */
  method WriteDescriptor(d: Device, dset: Handle, binding: nat, buffer: Handle) returns (d': Device)
    requires IsLive(d, dset) && d.slots[dset].value.DescriptorSet?
    requires IsLive(d, d.slots[dset].value.layout) && d.slots[d.slots[dset].value.layout].value.SetLayout?
    requires DeclaresUniform(d.slots[d.slots[dset].value.layout].value.bindings, binding)
    requires IsBuffer(d, buffer) && d.slots[buffer].value.usage.uniformBuffer
    ensures d'.slots == d.slots[dset := Some(d.slots[dset].value.(writes := d.slots[dset].value.writes[binding := buffer]))]
  {
    var s := d.slots[dset].value;
    d' := Device(d.slots[dset := Some(s.(writes := s.writes[binding := buffer]))]);
  }

  datatype IndexType = Uint32Indices

  /** The commands a draw records into a frame's command buffer. */
  datatype DrawCommand =
    | BindVertexBuffer(firstBinding: nat, buffer: Handle, offset: nat)
    | BindIndexBuffer(buffer: Handle, offset: nat, indexType: IndexType)
    | DrawIndexed(indexCount: nat, instanceCount: nat, firstIndex: nat, vertexOffset: int, firstInstance: nat)

  predicate HasVertexData(d: Device, h: Handle) {
    IsBuffer(d, h) && d.slots[h].value.contents.VertexData?
  }

  predicate HasIndexData(d: Device, h: Handle) {
    IsBuffer(d, h) && d.slots[h].value.contents.IndexData?
  }

  /** The vertex numbers one indexed draw fetches, or None when it would read
      past the bound index buffer or fetch past the bound vertex buffer. */
  ghost function Fetch(d: Device, vb: Option<Handle>, ib: Option<Handle>, count: nat, first: nat, vertexOffset: int): (r: Option<seq<nat>>)
  {
    if vb.Some? && ib.Some? && HasVertexData(d, vb.value) && HasIndexData(d, ib.value) then
      var vs := d.slots[vb.value].value.contents.vertices;
      var ix := d.slots[ib.value].value.contents.indices;
      if first + count <= |ix| && forall k :: first <= k < first + count ==> 0 <= ix[k] + vertexOffset < |vs| then
        Some(seq(count, i requires 0 <= i < count => (ix[first + i] + vertexOffset) as nat))
      else None
    else None
  }

  /** Replays recorded draw commands from binding state (`vb`, `ib`) and
      collects the vertex numbers fetched (once per draw, whatever the
      instance count); None when a draw reads out of range or the stream
      uses a binding slot or byte offset other than zero. */
  ghost function Replay(d: Device, cmds: seq<DrawCommand>, vb: Option<Handle>, ib: Option<Handle>): (r: Option<seq<nat>>)
    decreases |cmds|
  {
    if cmds == [] then Some([])
    else
      match cmds[0]
      case BindVertexBuffer(binding, b, offset) =>
        if binding == 0 && offset == 0 then Replay(d, cmds[1..], Some(b), ib) else None
      case BindIndexBuffer(b, offset, _) =>
        if offset == 0 then Replay(d, cmds[1..], vb, Some(b)) else None
      case DrawIndexed(count, _, first, vertexOffset, _) =>
        match Fetch(d, vb, ib, count, first, vertexOffset)
        case None => None
        case Some(fetched) =>
          match Replay(d, cmds[1..], vb, ib)
          case None => None
          case Some(more) => Some(fetched + more)
  }
}
